=== FILE: README.md ===
# RSS-to-Telegram relay: one poll cycle, modelled in Dafny

The relay polls one RSS feed every five minutes. Walking the items in feed
order, it posts a two-line message (title, then link) to one Telegram channel
for each item ahead of the first one it has already delivered; at that item
it stops, even if undelivered items follow. It keeps a row per delivered
guid in an SQLite table `articles`, so a delivered item is normally not
announced again, even across restarts. The exceptions are an item without a
guid (sent on every cycle), overlapping cycles, and a send that reaches the
channel while its promise rejects. This project models the core of that
program, `rssFetchAndPublish` in `src/index.ts`, together with the per-item projection that feeds it. It also proves what one
cycle, and two cycles in a row, do to the messages and to the table.

Modules, following the program's structure:

- `Wrappers`: `Option` (a SQL NULL, a missing row) and `Result`.
- `Feed`: the parsed item (`RawItem`) and the projected `Article`. `new Date(...)`
  is a parameter `parseDate` that yields a `JsDate`, which is either a valid
  instant (carried by its ISO-8601 text) or `InvalidDate`. `ShapeAll` is the
  `map` over the channel's items. `ProjectChannel` takes the parsed
  `channel.item` as it really comes out of the parser: nothing, one plain
  object, or an array. Only the array has a `map`; the other two throw
  before the loop.
- `DeliveryStore`: the table as a `map` from guid to `Record`, with `Lookup`
  (the `SELECT`) and `Insert`. `Insert` fails with `PrimaryKeyViolation` when
  the guid is already present, as the `PRIMARY KEY` column does.
- `Pipeline`: the cycle. `Run`/`Cycle` are the functional version. The method
  `PublishCycle` is the `for ... of` loop with its early `return`, and it is
  proved equal to `Cycle`. The send is an oracle `sendOk: nat -> bool`: it
  answers, for the k-th send of a cycle, whether the send succeeded. Within a
  cycle the k-th send carries the k-th article, because any failure ends the
  cycle. `JSON.stringify` of the category is a parameter `encode`.
- `CycleSpec`: a declarative account of a cycle, written without the loop.
  - `FreshPrefix`: the leading articles are absent from the table and have
    pairwise distinct guids.
  - `Blocked`: the article is already recorded when the loop reaches it.
  - `Announces`: the messages are the two-line texts of the leading articles.
  - `Extends`: the final table is the old one plus exactly their records.
  - `Spec`: combines the four above.
- `CycleLemmas`: the loop meets `Spec` (`CycleMeetsSpec`), and at most one
  result meets `Spec` (`SpecDeterminesResult`). So `Spec` is an independent
  definition of the cycle.
- `CycleProperties`: early exit, the prefix property, the table only growing,
  send-before-insert, idempotence, retry behaviour, timestamp fallback, and
  two worked scenarios: [new A, new B, recorded C, new D], and one article
  on an empty table run twice.

## Model

| member | source | states |
|---|---|---|
| Feed.Shape | src/index.ts:42-43 | one item keeps guid, title, link, category and description, and its `pubDate` becomes the `Date` built from the feed text |
| Feed.ShapeAll | src/index.ts:41-44 | the projection keeps the number and order of items and carries guid, title, link, category and description through unchanged |
| DeliveryStore.Lookup | src/index.ts:60-64 | the lookup finds a row exactly when the guid is in the table, and that row is the stored one |
| DeliveryStore.Insert | src/index.ts:78-82 | an insert succeeds exactly when the guid is new; it then adds one row under that guid and leaves every other row as it was, and otherwise it fails with a primary-key violation |
| Pipeline.Message | src/index.ts:76 | the message is the title, one line break, then the link |
| Pipeline.Timestamp | src/index.ts:66-73 | the timestamp is null exactly when the date is invalid, and otherwise it is the date's ISO text |
| Pipeline.RecordOf | src/index.ts:78-82 | the inserted row holds the article's guid, title and link, its best-effort timestamp and its encoded category |
| Pipeline.Run | src/index.ts:58-83 | the loop only appends to the messages already sent, at most one per remaining article, and never drops a guid from the table; a row is added only together with a message |
| Pipeline.Cycle | src/index.ts:58-83 | the loop from the first article with nothing sent yet: at most one message per article, no guid ever dropped, and a cycle that sends nothing leaves the table unchanged |
| Feed.ProjectChannel | src/index.ts:40-44 | the projection fails exactly when the parsed `item` is not an array (no item or a single item); on an array it keeps the length and order, carries each item's guid, title, link, category and description unchanged, and turns its `pubDate` text into the `Date` built from it |
| Pipeline.PublishCycle | src/index.ts:54-85 | a channel whose items are not an array fails before anything is sent or recorded; otherwise the imperative loop (lookup, early return, timestamp, send, insert) computes the same result as the functional cycle |
| CycleLemmas.StoredIffBlocked | src/index.ts:60-64 | partway through a cycle, the lookup finds an article exactly when its guid was in the table before the cycle or earlier in the same feed |
| CycleLemmas.RunMeetsSpec | src/index.ts:58-83 | from any state reachable after the first i articles, the loop ends as the declarative account says |
| CycleLemmas.CycleMeetsSpec | src/index.ts:54-85 | a cycle sends and records the longest run of new, successfully sent leading articles, then ends at the first blocked article, at the first failed send, or at the end of the feed |
| CycleLemmas.SpecDeterminesResult | src/index.ts:58-83 | the declarative account allows only one result, so it defines the cycle independently of the loop |
| CycleProperties.InsertNeverCollides | src/index.ts:60-82 | because the lookup comes before the insert, a sequential cycle never violates the primary key |
| CycleProperties.MessagesInFeedOrder | src/index.ts:58-76 | the i-th message is the i-th article's title, a line break and its link, so messages follow feed order |
| CycleProperties.EarlyExit | src/index.ts:58-64 | at a recorded article the cycle returns: nothing from it on is sent, no later unseen article gets a row, and if everything before it was new and sent the cycle ends exactly there |
| CycleProperties.PrefixWhenAllDelivered | src/index.ts:58-82 | when every send succeeds, the notified and recorded articles are exactly the longest prefix whose guids are absent from the table and pairwise distinct |
| CycleProperties.StoreOnlyGrows | src/index.ts:78-82 | every old row survives unchanged; the new guids are exactly those of the delivered articles, one row per message; rows stay keyed by their own guid |
| CycleProperties.SendBeforeInsert | src/index.ts:76-82 | when a send fails, its article gets no row, the cycle ends there, and the table gains only the articles before it |
| CycleProperties.SecondCycleQuiet | src/index.ts:60-64 | unless the very first send failed, rerunning the same feed on the resulting table sends nothing, inserts nothing and returns at the first article |
| CycleProperties.Idempotent | src/index.ts:60-82 | after a cycle in which every send succeeds, the same feed produces no message and no new row |
| CycleProperties.RetriedWhenFirst | src/index.ts:76-82 | a failed first send leaves the table as it was, and the next cycle sends and records that article again |
| CycleProperties.LaterFailureNotRetried | src/index.ts:58-82 | a failed send at a later position is never retried on an unchanged feed, because the next cycle returns at the recorded first article |
| CycleProperties.TimestampFallback | src/index.ts:66-81 | every delivered article is recorded, with its ISO date if the date is valid and with null otherwise |
| CycleProperties.RunIgnoresDetails | src/index.ts:66-82 | from tables with the same keys, feeds that differ only in dates or categories lead the loop to the same messages, the same ending and the same recorded guids |
| CycleProperties.DatesDoNotSteer | src/index.ts:66-76 | an invalid date does not stop or alter the cycle: the messages, the ending and the recorded guids do not depend on dates |
| CycleProperties.EarlyExitScenario | src/index.ts:58-64 | for the feed [new A, new B, recorded C, new D] with all sends succeeding, A and B are sent and recorded, the cycle returns at C, and D gets no row |
| CycleProperties.EndToEndScenario | src/index.ts:58-82 | one projected article g1/T1/L1 on an empty table yields exactly the message "T1", line break, "L1" and the row (g1, T1, L1, its ISO date, encoded category); the next cycle sends nothing |

## Behaviour of the code worth knowing

The model follows the code in each of these cases.

- A duplicate insert is not caught: an insert on a taken guid throws. In a
  single sequential cycle this cannot happen (`InsertNeverCollides`).
  Overlapping cycles are left out; there, two cycles could both miss the
  lookup and the second insert would throw.
- A failed cycle is neither logged nor contained. The cron callback does not
  await `rssFetchAndPublish` and attaches no handler, so a rejection (fetch,
  projection, send or insert) is an unhandled promise rejection. The model
  records only where the cycle stopped (`SendFailed`, `InsertFailed`, or the
  projection's `NotAnArray`). It does not model what the runtime does next.
- A failed send is retried on the next cycle only when it is the first
  article of the feed (`RetriedWhenFirst`). Because of the early exit, an
  article that fails after an earlier one was recorded is not retried while
  the feed is unchanged (`LaterFailureNotRetried`). New items added to the
  front later are processed, and then the cycle stops again at the recorded
  article.

## Left out

- The HTTP fetch via `phin` (src/index.ts:33-35): network I/O. The parsed
  items are an input sequence.
- XML parsing and HTML-entity decoding (src/index.ts:37-40): third-party
  libraries. Their output enters as `ChannelItems`. A fetch or parse failure
  happens before the loop, so it is not part of a cycle's result.
- Pipeline.PublishCycle: the cycle is modelled only for items whose `guid` is a
  string. An `<item>` without `<guid>` gives an undefined guid. Its lookup
  never finds a row, so the item is sent, and then the insert breaks the
  `NOT NULL` constraint of the `guid` column (src/index.ts:97). In the
  program, that is a send followed by a failed insert. The model, whose
  guids are strings, proves this never happens (`InsertNeverCollides`).
  Likewise only string titles and links are modelled. An item without
  `<title>` is sent as "undefined", a line break and the link (the template
  at src/index.ts:76 renders an undefined value that way), and its row gets a
  NULL title (src/index.ts:81). The same holds for an item without `<link>`.
- CycleProperties.EndToEndScenario: the parser delivers a one-item channel as
  a plain object, so in the program as written a feed with exactly one item
  fails in the projection (`ProjectChannel`) and never reaches the loop. The
  lemma is about the cycle over one projected article.
- The Telegram transport and the 200-300 ms random pacing delay
  (src/index.ts:48-52): a foreign call plus timing and `Math.random`. A send is
  one answer of the `sendOk` oracle. A message that reaches the channel while
  its promise still rejects is not modelled.
- JavaScript `Date` parsing and `toISOString` (src/index.ts:43, 69):
  `parseDate` is a parameter, and a valid date carries its ISO text. The model
  assumes `toISOString` throws exactly on an invalid date.
- `JSON.stringify` of the category (src/index.ts:82): the opaque parameter
  `encode`, whose `None` stands for the NULL bound when the category is absent.
- SQLite itself and table creation (src/index.ts:94-97): the table is a map
  keyed by guid, and the primary key is the failure of `Insert`.
- Cron scheduling and overlapping cycles (src/index.ts:101-106): wall-clock,
  fire-and-forget concurrency. Only sequential cycles are modelled.
- The `BOT_API_KEY` check, `dotenv`, process start-up and `console.log`
  (src/index.ts:10, 75, 87-92, 103, 109): configuration and logging, with no
  effect on the cycle's state.

=== FILE: cycle_lemmas.dfy ===
/** Properties of one poll cycle, and of two consecutive cycles, proved
    against the declarative account in `CycleSpec`. */
module CycleLemmas {
  import opened Wrappers
  import opened Feed
  import opened DeliveryStore
  import opened Pipeline
  import opened CycleSpec

  /** After the first `i` articles, the lookup for article `i` finds a row
      exactly when the article is blocked. */
  lemma StoredIffBlocked(feed: seq<Article>, i: nat, store0: Store, store: Store,
                         encode: Category -> Option<string>)
    requires i < |feed|
    requires Extends(store0, feed, i, store, encode)
    ensures feed[i].guid in store <==> Blocked(feed, store0, i)
  {
    if feed[i].guid in store && feed[i].guid !in store0 {
      GuidsFrom(feed, i, feed[i].guid);
    }
  }

  /** A new article `i` keeps the first `i + 1` articles new. */
  lemma StepFresh(feed: seq<Article>, i: nat, store0: Store)
    requires i < |feed|
    requires FreshPrefix(feed, store0, i) && !Blocked(feed, store0, i)
    ensures FreshPrefix(feed, store0, i + 1)
  {
  }

  /** Delivering article `i` appends its notification. */
  lemma StepAnnounces(feed: seq<Article>, i: nat, sent: seq<string>)
    requires i < |feed|
    requires Announces(sent, feed, i)
    ensures Announces(sent + [Message(feed[i])], feed, i + 1)
  {
  }

  /** Recording a new article `i` adds its row and nothing else. */
  lemma StepExtends(feed: seq<Article>, i: nat, store0: Store, store: Store,
                    encode: Category -> Option<string>)
    requires i < |feed|
    requires FreshPrefix(feed, store0, i) && !Blocked(feed, store0, i)
    requires Extends(store0, feed, i, store, encode)
    ensures Extends(store0, feed, i + 1, store[feed[i].guid := RecordOf(feed[i], encode)], encode)
  {
  }

  /** The loop, started in any state that the first `i` articles could have
      produced, ends in a state that the declarative account describes. */
  lemma {:induction false} RunMeetsSpec(feed: seq<Article>, i: nat, store0: Store, store: Store,
                                        sent: seq<string>, sendOk: nat -> bool,
                                        encode: Category -> Option<string>)
    requires i <= |feed|
    requires FreshPrefix(feed, store0, i) && Delivered(sendOk, i)
    requires Announces(sent, feed, i) && Extends(store0, feed, i, store, encode)
    ensures Spec(feed, store0, sendOk, encode, Run(feed, i, store, sent, sendOk, encode))
    decreases |feed| - i
  {
    if i < |feed| {
      var a := feed[i];
      StoredIffBlocked(feed, i, store0, store, encode);
      if a.guid !in store && sendOk(i) {
        StepFresh(feed, i, store0);
        StepAnnounces(feed, i, sent);
        StepExtends(feed, i, store0, store, encode);
        RunMeetsSpec(feed, i + 1, store0, store[a.guid := RecordOf(a, encode)],
                     sent + [Message(a)], sendOk, encode);
      }
    }
  }

  /** A cycle's result is described by the declarative account. */
  lemma CycleMeetsSpec(feed: seq<Article>, store: Store, sendOk: nat -> bool,
                       encode: Category -> Option<string>)
    ensures Spec(feed, store, sendOk, encode, Cycle(feed, store, sendOk, encode))
  {
    RunMeetsSpec(feed, 0, store, store, [], sendOk, encode);
  }

  /** If the first `m` articles are new, none of them is blocked. */
  lemma FreshNotBlocked(feed: seq<Article>, store: Store, n: nat, m: nat)
    requires FreshPrefix(feed, store, m) && n < m
    ensures !Blocked(feed, store, n)
  {
  }

  /** The declarative account leaves no freedom: at most one result meets it.
      Together with `CycleMeetsSpec` it is an independent definition of a
      cycle. */
  lemma SpecDeterminesResult(feed: seq<Article>, store: Store, sendOk: nat -> bool,
                             encode: Category -> Option<string>, r1: CycleResult, r2: CycleResult)
    requires Spec(feed, store, sendOk, encode, r1)
    requires Spec(feed, store, sendOk, encode, r2)
    ensures r1 == r2
  {
    var n1, n2 := |r1.sent|, |r2.sent|;
    if n1 < n2 {
      FreshNotBlocked(feed, store, n1, n2);
    } else if n2 < n1 {
      FreshNotBlocked(feed, store, n2, n1);
    }
    assert n1 == n2;
    assert r1.sent == r2.sent;
    assert r1.store.Keys == r2.store.Keys;
    forall g | g in r1.store
      ensures r1.store[g] == r2.store[g]
    {
      if g !in store {
        GuidsFrom(feed, n1, g);
      }
    }
    assert r1.store == r2.store;
  }
}

=== FILE: cycle_properties.dfy ===
/** What one poll cycle promises, and what two cycles in a row promise,
    derived from the declarative account. */
module CycleProperties {
  import opened Wrappers
  import opened Feed
  import opened DeliveryStore
  import opened Pipeline
  import opened CycleSpec
  import opened CycleLemmas

  /** A sequential cycle never inserts a guid that is already recorded: the
      lookup always comes first, so the primary key is never violated. */
  lemma InsertNeverCollides(feed: seq<Article>, store: Store, sendOk: nat -> bool,
                            encode: Category -> Option<string>)
    ensures !Cycle(feed, store, sendOk, encode).outcome.InsertFailed?
  {
    CycleMeetsSpec(feed, store, sendOk, encode);
  }

  /** Each delivered message is the article's title, a line break and its
      link, and the messages follow feed order. */
  lemma MessagesInFeedOrder(feed: seq<Article>, store: Store, sendOk: nat -> bool,
                            encode: Category -> Option<string>)
    ensures var r := Cycle(feed, store, sendOk, encode);
      && |r.sent| <= |feed|
      && forall i | 0 <= i < |r.sent| :: r.sent[i] == feed[i].title + "\n" + feed[i].link
  {
    CycleMeetsSpec(feed, store, sendOk, encode);
  }

  /** An article already recorded stops the cycle: nothing from it on is
      sent, and no later article gets a row, even an unseen one. If every
      article before it is new and delivered, the cycle ends exactly there. */
  lemma EarlyExit(feed: seq<Article>, store: Store, sendOk: nat -> bool,
                  encode: Category -> Option<string>, k: nat)
    requires k < |feed| && feed[k].guid in store
    ensures var r := Cycle(feed, store, sendOk, encode);
      && |r.sent| <= k
      && !r.outcome.Exhausted?
      && (forall j | k <= j < |feed| && feed[j].guid in r.store ::
            feed[j].guid in store || exists i | 0 <= i < k :: feed[i].guid == feed[j].guid)
      && (FreshPrefix(feed, store, k) && Delivered(sendOk, k) ==> r.outcome == StoppedAtSeen(k))
  {
    var r := Cycle(feed, store, sendOk, encode);
    CycleMeetsSpec(feed, store, sendOk, encode);
    forall j | k <= j < |feed| && feed[j].guid in r.store
      ensures feed[j].guid in store || exists i | 0 <= i < k :: feed[i].guid == feed[j].guid
    {
      if feed[j].guid !in store {
        GuidsFrom(feed, |r.sent|, feed[j].guid);
      }
    }
    if FreshPrefix(feed, store, k) && Delivered(sendOk, k) {
      assert |r.sent| == k;
    }
  }

  /** With every send succeeding, the cycle delivers and records exactly the
      longest prefix of the feed whose guids are absent from the table and
      pairwise distinct, and stops at the article after it, if any. */
  lemma PrefixWhenAllDelivered(feed: seq<Article>, store: Store, sendOk: nat -> bool,
                               encode: Category -> Option<string>)
    requires forall k: nat :: sendOk(k)
    ensures var r := Cycle(feed, store, sendOk, encode);
      var n := |r.sent|;
      && FreshPrefix(feed, store, n)
      && (forall m: nat | FreshPrefix(feed, store, m) :: m <= n)
      && Announces(r.sent, feed, n)
      && Extends(store, feed, n, r.store, encode)
      && r.outcome == (if n == |feed| then Exhausted else StoppedAtSeen(n))
  {
    var r := Cycle(feed, store, sendOk, encode);
    CycleMeetsSpec(feed, store, sendOk, encode);
    forall m: nat | FreshPrefix(feed, store, m)
      ensures m <= |r.sent|
    {
      if |r.sent| < m {
        FreshNotBlocked(feed, store, |r.sent|, m);
      }
    }
  }

  /** The guids of a new prefix are `n` distinct guids, none in the table. */
  lemma {:induction false} FreshGuids(feed: seq<Article>, store: Store, n: nat)
    requires FreshPrefix(feed, store, n)
    ensures |Guids(feed, n)| == n
    ensures Guids(feed, n) !! store.Keys
  {
    if n > 0 {
      FreshGuids(feed, store, n - 1);
      if feed[n - 1].guid in Guids(feed, n - 1) {
        GuidsFrom(feed, n - 1, feed[n - 1].guid);
      }
    }
  }

  /** The table only grows: every row present before is still there,
      unchanged; the new guids are exactly those of the delivered articles,
      one row per delivered message; every row stays under its own guid. */
  lemma StoreOnlyGrows(feed: seq<Article>, store: Store, sendOk: nat -> bool,
                       encode: Category -> Option<string>)
    ensures var r := Cycle(feed, store, sendOk, encode);
      && (forall g | g in store :: g in r.store && r.store[g] == store[g])
      && r.store.Keys - store.Keys == Guids(feed, |r.sent|)
      && |r.store| == |store| + |r.sent|
      && (KeyedByGuid(store) ==> KeyedByGuid(r.store))
  {
    var r := Cycle(feed, store, sendOk, encode);
    CycleMeetsSpec(feed, store, sendOk, encode);
    FreshGuids(feed, store, |r.sent|);
    assert r.store.Keys == store.Keys + Guids(feed, |r.sent|);
    assert |r.store.Keys| == |store.Keys| + |Guids(feed, |r.sent|)|;
    if KeyedByGuid(store) {
      forall g | g in r.store
        ensures r.store[g].guid == g
      {
        if g !in store {
          GuidsFrom(feed, |r.sent|, g);
        }
      }
    }
  }

  /** A failed send records nothing for its article and ends the cycle: the
      rows added are those of the articles before it, so its guid stays
      unseen for the next lookup. */
  lemma SendBeforeInsert(feed: seq<Article>, store: Store, sendOk: nat -> bool,
                         encode: Category -> Option<string>)
    requires Cycle(feed, store, sendOk, encode).outcome.SendFailed?
    ensures var r := Cycle(feed, store, sendOk, encode);
      var k := r.outcome.at;
      && k == |r.sent| < |feed|
      && !sendOk(k)
      && feed[k].guid !in r.store
      && Lookup(r.store, feed[k].guid) == None
      && r.store.Keys == store.Keys + Guids(feed, k)
  {
    var r := Cycle(feed, store, sendOk, encode);
    CycleMeetsSpec(feed, store, sendOk, encode);
    var k := r.outcome.at;
    if feed[k].guid in r.store && feed[k].guid !in store {
      GuidsFrom(feed, k, feed[k].guid);
    }
  }

  /** Unless the very first send of a cycle failed, running the same feed
      again against the table it left sends nothing and records nothing: the
      first article is now recorded, or the feed is empty. */
  lemma SecondCycleQuiet(feed: seq<Article>, store: Store, sendOk: nat -> bool, sendOk2: nat -> bool,
                         encode: Category -> Option<string>)
    requires Cycle(feed, store, sendOk, encode).outcome != SendFailed(0)
    ensures var r1 := Cycle(feed, store, sendOk, encode);
      var r2 := Cycle(feed, r1.store, sendOk2, encode);
      && r2.sent == []
      && r2.store == r1.store
      && r2.outcome == (if |feed| == 0 then Exhausted else StoppedAtSeen(0))
  {
    var r1 := Cycle(feed, store, sendOk, encode);
    CycleMeetsSpec(feed, store, sendOk, encode);
    if |feed| > 0 {
      assert feed[0].guid in r1.store;
    }
  }

  /** Idempotence: after a cycle in which every send succeeds, the same feed
      produces no message and no row. */
  lemma Idempotent(feed: seq<Article>, store: Store, sendOk: nat -> bool, sendOk2: nat -> bool,
                   encode: Category -> Option<string>)
    requires forall k: nat :: sendOk(k)
    ensures var r1 := Cycle(feed, store, sendOk, encode);
      var r2 := Cycle(feed, r1.store, sendOk2, encode);
      r2.sent == [] && r2.store == r1.store
  {
    CycleMeetsSpec(feed, store, sendOk, encode);
    SecondCycleQuiet(feed, store, sendOk, sendOk2, encode);
  }

  /** A failure on the first article leaves the table as it was, so the next
      cycle on the same feed delivers that article again. */
  lemma RetriedWhenFirst(feed: seq<Article>, store: Store, sendOk: nat -> bool, sendOk2: nat -> bool,
                         encode: Category -> Option<string>)
    requires Cycle(feed, store, sendOk, encode).outcome == SendFailed(0)
    requires sendOk2(0)
    ensures var r1 := Cycle(feed, store, sendOk, encode);
      var r2 := Cycle(feed, r1.store, sendOk2, encode);
      && r1.sent == [] && r1.store == store
      && |r2.sent| >= 1 && r2.sent[0] == feed[0].title + "\n" + feed[0].link
      && feed[0].guid in r2.store && r2.store[feed[0].guid] == RecordOf(feed[0], encode)
  {
    var r1 := Cycle(feed, store, sendOk, encode);
    CycleMeetsSpec(feed, store, sendOk, encode);
    assert r1.store == store;
    CycleMeetsSpec(feed, store, sendOk2, encode);
  }

  /** A failure on any later article is never retried while the feed is
      unchanged: the next cycle meets the recorded first article and returns,
      so the failed article is neither sent nor recorded. */
  lemma LaterFailureNotRetried(feed: seq<Article>, store: Store, sendOk: nat -> bool, sendOk2: nat -> bool,
                               encode: Category -> Option<string>)
    requires Cycle(feed, store, sendOk, encode).outcome.SendFailed?
    requires Cycle(feed, store, sendOk, encode).outcome.at > 0
    ensures var r1 := Cycle(feed, store, sendOk, encode);
      var r2 := Cycle(feed, r1.store, sendOk2, encode);
      var k := r1.outcome.at;
      && r2.sent == []
      && k < |feed| && feed[k].guid !in r2.store
  {
    SendBeforeInsert(feed, store, sendOk, encode);
    SecondCycleQuiet(feed, store, sendOk, sendOk2, encode);
  }

  /** The stored timestamp is the ISO text of a valid date and NULL for an
      invalid one; either way the delivered article gets its row. */
  lemma TimestampFallback(feed: seq<Article>, store: Store, sendOk: nat -> bool,
                          encode: Category -> Option<string>)
    ensures var r := Cycle(feed, store, sendOk, encode);
      && |r.sent| <= |feed|
      && forall i | 0 <= i < |r.sent| ::
           && feed[i].guid in r.store
           && r.store[feed[i].guid].pubDate ==
                (if feed[i].pubDate == InvalidDate then None else Some(feed[i].pubDate.iso))
  {
    CycleMeetsSpec(feed, store, sendOk, encode);
  }

  /** Two feeds that agree on every article's guid, title and link. */
  ghost predicate SameNotices(f1: seq<Article>, f2: seq<Article>)
  {
    && |f1| == |f2|
    && forall i | 0 <= i < |f1| ::
         f1[i].guid == f2[i].guid && f1[i].title == f2[i].title && f1[i].link == f2[i].link
  }

  /** Dates and categories never steer the loop: from tables with the same
      keys, feeds that differ only in them send the same messages, end the
      same way and record the same guids. */
  lemma {:induction false} RunIgnoresDetails(f1: seq<Article>, f2: seq<Article>, i: nat,
                                             s1: Store, s2: Store, sent: seq<string>, sendOk: nat -> bool,
                                             e1: Category -> Option<string>, e2: Category -> Option<string>)
    requires SameNotices(f1, f2) && i <= |f1|
    requires s1.Keys == s2.Keys
    ensures var r1, r2 := Run(f1, i, s1, sent, sendOk, e1), Run(f2, i, s2, sent, sendOk, e2);
      r1.sent == r2.sent && r1.outcome == r2.outcome && r1.store.Keys == r2.store.Keys
    decreases |f1| - i
  {
    if i < |f1| && f1[i].guid !in s1 && sendOk(i) {
      assert Message(f1[i]) == Message(f2[i]);
      RunIgnoresDetails(f1, f2, i + 1, s1[f1[i].guid := RecordOf(f1[i], e1)],
                        s2[f2[i].guid := RecordOf(f2[i], e2)], sent + [Message(f1[i])], sendOk, e1, e2);
    }
  }

  /** An unreadable date does not stop the cycle: replacing any article's
      date (or category) changes neither the messages nor where the cycle
      ends nor which guids it records. */
  lemma DatesDoNotSteer(f1: seq<Article>, f2: seq<Article>, store: Store, sendOk: nat -> bool,
                        encode: Category -> Option<string>)
    requires SameNotices(f1, f2)
    ensures var r1, r2 := Cycle(f1, store, sendOk, encode), Cycle(f2, store, sendOk, encode);
      r1.sent == r2.sent && r1.outcome == r2.outcome && r1.store.Keys == r2.store.Keys
  {
    RunIgnoresDetails(f1, f2, 0, store, store, [], sendOk, encode, encode);
  }

  /** Two new articles, then a recorded one, then another new one. The first two are sent and recorded, the
      cycle returns at the third, and the fourth is never looked at. */
  lemma EarlyExitScenario(a: Article, b: Article, c: Article, d: Article, store: Store,
                          sendOk: nat -> bool, encode: Category -> Option<string>)
    requires a.guid !in store && b.guid !in store && c.guid in store && d.guid !in store
    requires a.guid != b.guid && d.guid != a.guid && d.guid != b.guid
    requires forall k: nat :: sendOk(k)
    ensures var r := Cycle([a, b, c, d], store, sendOk, encode);
      && r.sent == [a.title + "\n" + a.link, b.title + "\n" + b.link]
      && r.outcome == StoppedAtSeen(2)
      && a.guid in r.store && b.guid in r.store && d.guid !in r.store
  {
    var feed := [a, b, c, d];
    var r := Cycle(feed, store, sendOk, encode);
    assert FreshPrefix(feed, store, 2) && Delivered(sendOk, 2);
    EarlyExit(feed, store, sendOk, encode, 2);
    CycleMeetsSpec(feed, store, sendOk, encode);
    assert Guids(feed, 1) == {a.guid} by {
      assert Guids(feed, 0) == {};
    }
    assert Guids(feed, 2) == {a.guid, b.guid};
  }

  /** One projected article on an empty table, every send succeeding: it is
      sent once as "T1", a line break, "L1", and recorded with its ISO date;
      the same feed again sends nothing. */
  lemma EndToEndScenario(sendOk: nat -> bool, sendOk2: nat -> bool, encode: Category -> Option<string>)
    requires forall k: nat :: sendOk(k)
    ensures var g1 := Article("g1", "T1", "L1", ValidDate("2024-01-01T00:00:00.000Z"), NoCategory, None);
      var r1 := Cycle([g1], map[], sendOk, encode);
      var r2 := Cycle([g1], r1.store, sendOk2, encode);
      && r1.sent == ["T1\nL1"]
      && r1.store == map["g1" := Record("g1", "T1", "L1", Some("2024-01-01T00:00:00.000Z"), encode(NoCategory))]
      && r2.sent == []
  {
    var g1 := Article("g1", "T1", "L1", ValidDate("2024-01-01T00:00:00.000Z"), NoCategory, None);
    var r1 := Cycle([g1], map[], sendOk, encode);
    assert FreshPrefix([g1], map[], 1);
    PrefixWhenAllDelivered([g1], map[], sendOk, encode);
    assert |r1.sent| == 1;
    assert Guids([g1], 1) == {"g1"} by {
      assert Guids([g1], 0) == {};
    }
    assert r1.sent[0] == "T1" + "\n" + "L1" == "T1\nL1";
    assert r1.sent == ["T1\nL1"];
    assert r1.store == map["g1" := Record("g1", "T1", "L1", Some("2024-01-01T00:00:00.000Z"), encode(NoCategory))];
    Idempotent([g1], map[], sendOk, sendOk2, encode);
  }
}

=== FILE: cycle_spec.dfy ===
/** A declarative account of what one poll cycle does, written without the
    loop: the cycle delivers and records the longest run of leading articles
    that are new (absent from the table and not repeated earlier in the feed)
    and whose sends succeed, and then ends for the reason found at the first
    article outside that run. */
module CycleSpec {
  import opened Wrappers
  import opened Feed
  import opened DeliveryStore
  import opened Pipeline

  /** The first `n` articles are all new: none is in `store`, no two share a guid. */
  ghost predicate FreshPrefix(feed: seq<Article>, store: Store, n: nat)
  {
    && n <= |feed|
    && (forall i | 0 <= i < n :: feed[i].guid !in store)
    && (forall i, j | 0 <= i < j < n :: feed[i].guid != feed[j].guid)
  }

  /** Article `n` is already recorded by the time the cycle reaches it: it was
      in the table before the cycle, or an earlier article of this feed had
      the same guid. */
  ghost predicate Blocked(feed: seq<Article>, store: Store, n: nat)
    requires n < |feed|
  {
    feed[n].guid in store || exists i | 0 <= i < n :: feed[i].guid == feed[n].guid
  }

  /** The guids of the first `n` articles. */
  ghost function Guids(feed: seq<Article>, n: nat): (gs: set<string>)
    requires n <= |feed|
    ensures forall i | 0 <= i < n :: feed[i].guid in gs
  {
    if n == 0 then {} else Guids(feed, n - 1) + {feed[n - 1].guid}
  }

  /** Every guid collected by `Guids` comes from one of the first `n` articles. */
  lemma {:induction false} GuidsFrom(feed: seq<Article>, n: nat, g: string)
    requires n <= |feed|
    requires g in Guids(feed, n)
    ensures exists i | 0 <= i < n :: feed[i].guid == g
  {
    if g != feed[n - 1].guid {
      GuidsFrom(feed, n - 1, g);
    }
  }

  /** `sent` is the notification of each of the first `n` articles, in feed order. */
  ghost predicate Announces(sent: seq<string>, feed: seq<Article>, n: nat)
    requires n <= |feed|
  {
    && |sent| == n
    && forall i | 0 <= i < n :: sent[i] == feed[i].title + "\n" + feed[i].link
  }

  /** `after` is `before` plus one row for each of the first `n` articles, and
      nothing else: old rows unchanged, new rows exactly the articles' records. */
  ghost predicate Extends(before: Store, feed: seq<Article>, n: nat, after: Store,
                          encode: Category -> Option<string>)
    requires n <= |feed|
  {
    && after.Keys == before.Keys + Guids(feed, n)
    && (forall g | g in before :: g in after && after[g] == before[g])
    && (forall i | 0 <= i < n :: feed[i].guid in after && after[feed[i].guid] == RecordOf(feed[i], encode))
  }

  /** The sends for the first `n` articles all succeeded. */
  ghost predicate Delivered(sendOk: nat -> bool, n: nat)
  {
    forall k | 0 <= k < n :: sendOk(k)
  }

  /** The complete description of a cycle's result `r`. */
  ghost predicate Spec(feed: seq<Article>, store: Store, sendOk: nat -> bool,
                       encode: Category -> Option<string>, r: CycleResult)
  {
    var n := |r.sent|;
    && FreshPrefix(feed, store, n)
    && Delivered(sendOk, n)
    && Announces(r.sent, feed, n)
    && Extends(store, feed, n, r.store, encode)
    && match r.outcome
       case Exhausted => n == |feed|
       case StoppedAtSeen(at) => at == n < |feed| && Blocked(feed, store, n)
       case SendFailed(at) => at == n < |feed| && !Blocked(feed, store, n) && !sendOk(n)
       case InsertFailed(_) => false
  }
}

=== FILE: feed.dfy ===
/** The shape of one feed item, as the XML parser hands it over and as the
    pipeline sees it after the per-item projection of src/index.ts. */
module Feed {
  import opened Wrappers

  /** The `category` element of an item: absent, one string, or several. */
  datatype Category = NoCategory | OneCategory(name: string) | Categories(names: seq<string>)

  /** One parsed `<item>` of the channel. `others` stands for whatever further
      children the parser produced; the projection drops them. */
  datatype RawItem = RawItem(
    guid: string,
    title: string,
    link: string,
    pubDate: string,
    category: Category,
    description: Option<string>,
    others: map<string, string>)

  /** A JavaScript `Date`: either a valid instant, carried here by its ISO-8601
      rendering, or the "Invalid Date" that `new Date` yields for text it
      cannot read. */
  datatype JsDate = ValidDate(iso: string) | InvalidDate

  /** An item after projection: the feed's `pubDate` text has become a `Date`. */
  datatype Article = Article(
    guid: string,
    title: string,
    link: string,
    pubDate: JsDate,
    category: Category,
    description: Option<string>)

  /** Projection of one item. `parseDate` is the `Date` constructor, which
      never throws: unreadable text becomes an invalid date. */
  function Shape(item: RawItem, parseDate: string -> JsDate): (a: Article)
    ensures a.guid == item.guid && a.title == item.title && a.link == item.link
    ensures a.category == item.category && a.description == item.description
    ensures a.pubDate == parseDate(item.pubDate)
  {
    Article(item.guid, item.title, item.link, parseDate(item.pubDate), item.category, item.description)
  }

  /** The `map` over the channel's items: same length, same order, each item
      projected on its own. */
  function ShapeAll(items: seq<RawItem>, parseDate: string -> JsDate): (articles: seq<Article>)
    ensures |articles| == |items|
    ensures forall i | 0 <= i < |items| ::
      && articles[i].guid == items[i].guid
      && articles[i].title == items[i].title
      && articles[i].link == items[i].link
      && articles[i].category == items[i].category
      && articles[i].description == items[i].description
      && articles[i].pubDate == parseDate(items[i].pubDate)
  {
    seq(|items|, i requires 0 <= i < |items| => Shape(items[i], parseDate))
  }

  /** What `rss.rss.channel.item` holds after parsing. The parser is not told
      that `item` repeats, so a channel with no `<item>` yields nothing, one
      `<item>` yields a plain object, and only two or more yield an array. */
  datatype ChannelItems = NoItems | SingleItem(item: RawItem) | ItemArray(items: seq<RawItem>)

  /** The `TypeError` thrown when `.map` is called on something that is not
      an array. */
  datatype ShapeError = NotAnArray

  /** src/index.ts, lines 40-44: the projection of the channel's items.
      Only an array has a `map`; on no item or a single item the call
      throws, before any lookup, send or insert. */
  function ProjectChannel(channel: ChannelItems, parseDate: string -> JsDate): (r: Result<seq<Article>, ShapeError>)
    ensures r.Failure? <==> !channel.ItemArray?
    ensures r.Failure? ==> r.error == NotAnArray
    ensures r.Success? ==>
      && |r.value| == |channel.items|
      && forall i | 0 <= i < |channel.items| ::
           && r.value[i].guid == channel.items[i].guid
           && r.value[i].title == channel.items[i].title
           && r.value[i].link == channel.items[i].link
           && r.value[i].category == channel.items[i].category
           && r.value[i].description == channel.items[i].description
           && r.value[i].pubDate == parseDate(channel.items[i].pubDate)
  {
    match channel
    case ItemArray(items) => Success(ShapeAll(items, parseDate))
    case _ => Failure(NotAnArray)
  }
}

=== FILE: pipeline.dfy ===
/** One poll cycle of `rssFetchAndPublish`: walk the articles in feed order,
    stop at the first guid already recorded, otherwise send a two-line message
    and, once the send has succeeded, record the article.

    The outside world enters as parameters: the send is an oracle `sendOk`
    that answers, for the k-th send of the cycle, whether it succeeded; the
    `Date` constructor is `parseDate`; the `JSON.stringify` of a category is
    `encode` (`None` standing for the SQL NULL bound for an absent
    category). */
module Pipeline {
  import opened Wrappers
  import opened Feed
  import opened DeliveryStore

  /** How a cycle ended. `at` is the index in the feed of the article the
      cycle stopped on. */
  datatype Outcome =
    | Exhausted              // every article was new and recorded
    | StoppedAtSeen(at: nat) // the lookup found this article's guid: return
    | SendFailed(at: nat)    // the send for this article was rejected
    | InsertFailed(at: nat)  // the insert for this article broke the primary key

  /** What a cycle leaves behind: the messages delivered, in order, the
      table, and how it ended. */
  datatype CycleResult = CycleResult(sent: seq<string>, store: Store, outcome: Outcome)

  /** The notification text: the title, a line break, the link. */
  function Message(a: Article): (m: string)
    ensures |m| == |a.title| + 1 + |a.link|
    ensures m[..|a.title|] == a.title && m[|a.title|] == '\n' && m[|a.title| + 1..] == a.link
  {
    a.title + "\n" + a.link
  }

  /** The best-effort timestamp: `toISOString` throws on an invalid date and
      the throw is caught into `null`; it never stops the cycle. */
  function Timestamp(d: JsDate): (t: Option<string>)
    ensures t.None? <==> d == InvalidDate
    ensures d.ValidDate? ==> t == Some(d.iso)
  {
    match d
    case ValidDate(iso) => Some(iso)
    case InvalidDate => None
  }

  /** The row inserted for a delivered article. */
  function RecordOf(a: Article, encode: Category -> Option<string>): (row: Record)
    ensures row.guid == a.guid && row.title == a.title && row.link == a.link
    ensures row.pubDate == Timestamp(a.pubDate) && row.category == encode(a.category)
  {
    Record(a.guid, a.title, a.link, Timestamp(a.pubDate), encode(a.category))
  }

  /** The loop from article `i` on, with `store` and `sent` as left by the
      articles before `i`. The k-th send of a cycle carries the k-th article,
      since every earlier article was sent: a failure ends the cycle. */
  function Run(feed: seq<Article>, i: nat, store: Store, sent: seq<string>,
               sendOk: nat -> bool, encode: Category -> Option<string>): (r: CycleResult)
    requires i <= |feed|
    ensures |sent| <= |r.sent| <= |sent| + |feed| - i
    ensures r.sent[..|sent|] == sent
    ensures store.Keys <= r.store.Keys
    ensures |r.sent| == |sent| ==> r.store == store
    decreases |feed| - i
  {
    if i == |feed| then CycleResult(sent, store, Exhausted)
    else
      var article := feed[i];
      if Lookup(store, article.guid).Some? then CycleResult(sent, store, StoppedAtSeen(i))
      else if !sendOk(i) then CycleResult(sent, store, SendFailed(i))
      else
        var sent' := sent + [Message(article)];
        match Insert(store, RecordOf(article, encode))
        case Failure(_) => CycleResult(sent', store, InsertFailed(i))
        case Success(store') =>
          var r := Run(feed, i + 1, store', sent', sendOk, encode);
          assert r.sent[..|sent|] == r.sent[..|sent'|][..|sent|];
          r
  }

  /** One cycle over the projected feed, starting from the table as it is. */
  function Cycle(feed: seq<Article>, store: Store,
                 sendOk: nat -> bool, encode: Category -> Option<string>): (r: CycleResult)
    ensures |r.sent| <= |feed|
    ensures store.Keys <= r.store.Keys
    ensures r.sent == [] ==> r.store == store
  {
    Run(feed, 0, store, [], sendOk, encode)
  }

  /** The cycle as the source writes it: project the parsed items, then a
      `for ... of` loop with an early `return`, a send, and an insert. A
      channel whose items are not an array fails in the projection, with
      nothing sent and the table untouched. */
  method PublishCycle(channel: ChannelItems, parseDate: string -> JsDate, store: Store,
                      sendOk: nat -> bool, encode: Category -> Option<string>)
    returns (r: Result<CycleResult, ShapeError>)
    ensures r.Failure? <==> !channel.ItemArray?
    ensures channel.ItemArray? ==> r == Success(Cycle(ShapeAll(channel.items, parseDate), store, sendOk, encode))
  {
    var projected := ProjectChannel(channel, parseDate);
    if projected.Failure? {
      return Failure(projected.error);
    }
    var articles := projected.value;
    var db := store;
    var sent: seq<string> := [];
    var i: nat := 0;
    while i < |articles|
      invariant i <= |articles|
      invariant Run(articles, i, db, sent, sendOk, encode) == Cycle(articles, store, sendOk, encode)
      decreases |articles| - i
    {
      var article := articles[i];
      var row := Lookup(db, article.guid);
      if row.Some? {
        return Success(CycleResult(sent, db, StoppedAtSeen(i)));
      }
      var date := Timestamp(article.pubDate);
      var message := article.title + "\n" + article.link;
      if !sendOk(i) {
        return Success(CycleResult(sent, db, SendFailed(i)));
      }
      sent := sent + [message];
      var inserted := Insert(db, Record(article.guid, article.title, article.link, date, encode(article.category)));
      if inserted.Failure? {
        return Success(CycleResult(sent, db, InsertFailed(i)));
      }
      db := inserted.value;
      i := i + 1;
    }
    r := Success(CycleResult(sent, db, Exhausted));
  }
}

=== FILE: store.dfy ===
/** The `articles` table: one row per delivered guid, with the guid as primary
    key. The table has a point lookup and an insert; nothing updates or
    deletes a row. */
module DeliveryStore {
  import opened Wrappers

  /** A row of `articles`. `pubDate` and `category` are nullable columns. */
  datatype Record = Record(
    guid: string,
    title: string,
    link: string,
    pubDate: Option<string>,
    category: Option<string>)

  type Store = map<string, Record>

  /** The storage engine's answer to an insert whose key is already present. */
  datatype StoreError = PrimaryKeyViolation(guid: string)

  /** Every row sits under its own guid. */
  ghost predicate KeyedByGuid(store: Store)
  {
    forall g | g in store :: store[g].guid == g
  }

  /** `SELECT * FROM articles WHERE guid = ?`: the row, or nothing. */
  function Lookup(store: Store, guid: string): (row: Option<Record>)
    ensures row.Some? <==> guid in store
    ensures row.Some? ==> row.value == store[guid]
  {
    if guid in store then Some(store[guid]) else None
  }

  /** `INSERT INTO articles ...`: adds the row under its guid, or fails when
      the primary key is taken; the table is then left as it was. */
  function Insert(store: Store, row: Record): (r: Result<Store, StoreError>)
    ensures r.Success? <==> row.guid !in store
    ensures r.Failure? ==> r.error == PrimaryKeyViolation(row.guid)
    ensures r.Success? ==>
      && r.value.Keys == store.Keys + {row.guid}
      && r.value[row.guid] == row
      && forall g | g in store :: r.value[g] == store[g]
  {
    if row.guid in store then Failure(PrimaryKeyViolation(row.guid))
    else Success(store[row.guid := row])
  }
}

=== FILE: wrappers.dfy ===
/** Two small wrappers shared by the model: an optional value (a SQL NULL, a
    row that may be missing) and a value-or-error result. */
module Wrappers {

  datatype Option<+T> = None | Some(value: T)

  datatype Result<+T, +E> = Success(value: T) | Failure(error: E)
}
